=== FILE: README.md ===
# Quiz flow of FlaskMusicTechQuiz, in Dafny

This project models the browser quiz controller `static/js/gameEngine.js`: it fetches a
list of questions, renders one question at a time with one button per option, scores a
click on the right option, waits for a timer, moves to the next question, and finally
shows the score out of the number of questions.

The script's three globals (`quizData`, `currentQuestion`, `currentScore`) are a
`Quiz.Session`; the parts of the document it writes (question text, option buttons,
feedback text, score readout, progress-bar width) are a `Quiz.Screen`; a `Quiz.Page` is
both. Each script function is a pure transition on a page. A phase says what the script
waits for: the fetch (`Loading`), a click (`Unanswered`), the 2000 ms timer after an
answer (`Locked`), or nothing any more (`Failed`, `Complete`).

Modules:

- `Wrappers`: `Option`.
- `Text`: how template literals write integers below 10^21 (`NatToString`, `IntToString`), and
  JavaScript's `parseInt`, which each button applies to its option key. This follows
  section 19.2.5 of ECMA-262: leading white space, one sign, a `0x` prefix, then the
  longest run of digits, with NaN when there are none.
- `PropertyOrder`: the order in which `for (let key in q.options)` visits the keys of an
  object built by JSON.parse. Following OrdinaryOwnPropertyKeys (section 10.1.11.1 of
  ECMA-262), array-index keys come first in ascending numeric order. The other keys follow
  in creation order.
- `Quiz`: the datatypes and one function per script function: `LoadQuestion`, `Percent`
  (updateProgressBar), `CheckAnswer`, `LoadNextQuestion`, `ShowQuizComplete`, `Start`
  (lines 4-6), `OnFetchLoaded` and `OnFetchFailed` (the promise continuations).
- `Flow`: the events (fetch settled, click on button *j*, timer fired), the invariant of
  every reachable page, `Step`, `Run`, and lemmas about whole runs.

Three behaviours of the script the model keeps:

- An empty question list makes `loadQuestion(0)` throw inside the promise chain. The
  `.catch` handler catches the error and shows "Failed to load quiz.", so `OnFetchLoaded`
  with an empty list ends in the `Failed` phase.
- With more than 100 questions the first question's progress bar is 0% wide.
  `ProgressBounds` proves at most 100%, exactly 100% on the last question, and at least 1%
  when there are at most 100 questions.
- A click scores only when `parseInt(key) === q.answer`, so only an integral number in the
  `answer` field can ever match. `Quiz.Answer` keeps any other JSON value only as the text
  the feedback prints.

## Model

| member | source | states |
|---|---|---|
| Flow.StartInv | static/js/gameEngine.js:4-6 | the session starts with no questions, at index 0, with score 0, and satisfies the invariant |
| Quiz.Start | static/js/gameEngine.js:4-6 | before the fetch settles there are no questions, the index and score are 0, the page waits for the fetch, and no option button exists |
| Flow.FirstQuestionRendered | static/js/gameEngine.js:71-76 | a successful fetch of a non-empty list stores it and renders question 0: "Q1: " + prompt, progress for 1 of n, cleared feedback, one enabled button per option |
| Flow.OneButtonPerKey | static/js/gameEngine.js:16-21 | a question awaiting a click shows one button per option, and the keys behind the buttons are pairwise distinct |
| Quiz.OnFetchLoaded | static/js/gameEngine.js:71-80 | the fetched list becomes the questions; non-empty: question 0 is rendered and awaits a click; empty: the thrown error ends in the failure text with no buttons added |
| Quiz.OnFetchFailed | static/js/gameEngine.js:77-80 | a failed fetch shows the failure text, loads no question and adds no buttons |
| Flow.FailureIsTerminal | static/js/gameEngine.js:77-80 | after a failed fetch there are no option buttons and no event can be delivered |
| Quiz.LoadQuestion | static/js/gameEngine.js:8-22 | rendering question i labels it "Q(i+1): prompt", clears the feedback, keeps the score readout, produces one enabled button per option, and sets a progress of at most 100 that is 100 exactly on the last question |
| Quiz.Percent | static/js/gameEngine.js:24-27 | the bar width is the whole percentage rounded down: pct * total <= current * 100 < (pct + 1) * total |
| Quiz.QuestionLabelNumbersFromOne | static/js/gameEngine.js:11 | the question label is "Q" followed by the 1-based question number |
| Quiz.QuestionLabel | static/js/gameEngine.js:11 | the question text starts with "Q" and ends with ": " followed by the prompt unchanged |
| Quiz.FreshButtonsFollowOptions | static/js/gameEngine.js:16-21 | the buttons are the option entries in for-in order, each captioned "key. text", enabled, and bound to parseInt(key) and the question's answer |
| Quiz.FreshButtons | static/js/gameEngine.js:16-21 | the loop creates exactly as many buttons as the options object has keys |
| Quiz.OptionButton | static/js/gameEngine.js:17-19 | a new button is enabled, its caption starts with the key, its handler passes the question's answer, and for an array-index key it passes that key's number |
| PropertyOrder.EnumerationOrderSpec | static/js/gameEngine.js:16 | for-in visits every option once (a permutation): array-index keys first in ascending order, then the keys that are not array indices |
| PropertyOrder.EnumerationOrder | static/js/gameEngine.js:16 | for-in visits as many keys as the object has, and exactly its entries (same multiset) |
| PropertyOrder.NamesKeepCreationOrder | static/js/gameEngine.js:16 | after the array-index keys, for-in visits every entry whose key is not an array index, as often as it occurs, in the order of the object's entries (creation order), and nothing else |
| PropertyOrder.NameKeyed | static/js/gameEngine.js:16 | the keys that are not array indices, kept as a subsequence of the object's entries (same relative order), none of them an array index |
| PropertyOrder.EnumerationOrderUniqueKeys | static/js/gameEngine.js:16 | an object whose keys are unique (as JSON.parse builds them) is enumerated with each key once |
| PropertyOrder.IndexKeysStrictlyAscend | static/js/gameEngine.js:16 | for such an object every two array-index keys are visited in strictly ascending numeric order |
| PropertyOrder.ArrayIndicesStrictlyAscend | static/js/gameEngine.js:16 | distinct numeric keys are visited in strictly ascending numeric order |
| PropertyOrder.SortByIndex | static/js/gameEngine.js:16 | the numeric keys are ordered as a permutation of the input that is ascending |
| PropertyOrder.ArrayIndexIsNumeral | static/js/gameEngine.js:16 | every array-index key is the decimal numeral of its number |
| PropertyOrder.ArrayIndexOfNat | static/js/gameEngine.js:16 | every numeral of 0 .. 2^32-2 is an array-index key |
| Text.ParseIntOfIntToString | static/js/gameEngine.js:19 | parseInt reads a written integer back, even when a non-alphanumeric character follows it |
| Text.ParseIntOfNumeral | static/js/gameEngine.js:19 | parseInt of a canonical numeral key is its value |
| Text.ParseIntNoDigits | static/js/gameEngine.js:19 | a key starting with a character that is not white space, a sign or a digit is NaN to parseInt |
| Text.ParseInt | static/js/gameEngine.js:19 | parseInt of a key with no decimal digit is NaN, and a negative result needs a minus sign in the key |
| Text.NatToStringOfValue | static/js/gameEngine.js:18-19 | a canonical numeral is exactly what writing its value gives, so numeric keys round-trip through number and text |
| Text.NatToString | static/js/gameEngine.js:11 | the numeral written for n is canonical and denotes n |
| Quiz.IndexKeyScoresIff | static/js/gameEngine.js:19 | the button of a numeric key selects that number and scores exactly when the answer is that number |
| Quiz.Matches | static/js/gameEngine.js:36 | `===` between parseInt's result and the answer: NaN matches nothing, a non-integral answer matches nothing, equal integers match and different integers do not |
| Quiz.ProgressBounds | static/js/gameEngine.js:24-27 | the bar width for question i of n is at most 100%, exactly 100% on the last question, and at least 1% when n <= 100 |
| Quiz.ProgressMonotone | static/js/gameEngine.js:24-27 | the bar width does not decrease as the index grows |
| Quiz.CheckAnswer | static/js/gameEngine.js:30-53 | all buttons are disabled; a match adds exactly one point with the correct cue and text, a mismatch keeps the score and names the answer; the index and questions do not change; the readout shows the new score |
| Quiz.ScoreText | static/js/gameEngine.js:48 | the readout starts with "Score: " and parseInt of the rest reads back the score |
| Quiz.DisableAll | static/js/gameEngine.js:31 | the same number of buttons, each disabled and otherwise unchanged |
| Flow.ClickScoresIffCorrect | static/js/gameEngine.js:30-47 | clicking an option raises the score by one if and only if parseInt of its key equals the answer, otherwise leaves it, and locks the question |
| Flow.SecondClickIgnored | static/js/gameEngine.js:31 | once a question is locked, a further click changes nothing |
| Quiz.IncorrectTextNamesAnswer | static/js/gameEngine.js:44 | after a wrong answer whose integral answer has magnitude below 10^21, parseInt of the text after the fixed wording gives the correct answer |
| Text.IntToString | static/js/gameEngine.js:44 | `${n}` for an integer below 10^21 in magnitude: a minus sign exactly when n is negative, then the canonical decimal numeral of the magnitude |
| Text.IntToStringRoundTrip | static/js/gameEngine.js:44 | parseInt reads back every integer written that way |
| Quiz.IncorrectText | static/js/gameEngine.js:44 | the wrong-answer feedback starts with the fixed "❌ Incorrect. The correct answer is " wording and ends with a full stop |
| Quiz.LoadNextQuestion | static/js/gameEngine.js:55-62 | the index rises by exactly one with the score unchanged; an index in range is rendered and awaits a click, otherwise the quiz completes with the final message |
| Flow.TimerAdvances | static/js/gameEngine.js:50-62 | when the timer fires the index rises by one; in range, that question is shown with its buttons and the previous feedback cleared; at the end, the quiz is complete |
| Flow.NextQuestion | static/js/gameEngine.js:55-62 | from a locked question, loadNextQuestion moves the index on by one with the score kept, rendering the next question with cleared feedback and fresh buttons or completing the quiz after the last |
| Quiz.ShowQuizComplete | static/js/gameEngine.js:64-69 | completion shows the banner, removes all buttons, and reports the score out of the number of questions |
| Quiz.FinalMessageReportsVerbatim | static/js/gameEngine.js:67 | different (score, total) pairs never give the same final message |
| Quiz.FinalMessage | static/js/gameEngine.js:67 | the completion message starts with "Your final score is " and ends with a full stop |
| Quiz.FinalMessageExample | static/js/gameEngine.js:67 | for single digits the message reads "Your final score is s out of t." |
| Flow.CompleteIsTerminal | static/js/gameEngine.js:64-69 | no event can be delivered to a completed quiz |
| Flow.Step | static/js/gameEngine.js:19-80 | one event keeps the invariant (index in range, score <= answered <= questions, unique option keys, the screen shows the current question, cleared feedback while awaiting a click), raises the score by at most one and only when locking an unanswered question, and never reduces the number answered |
| Flow.Run | static/js/gameEngine.js:30-80 | any sequence of deliverable events keeps the invariant and never lowers the score |
| Flow.EachQuestionScoresAtMostOnce | static/js/gameEngine.js:31-56 | along any run, the indices at which the score rose strictly increase and were answered during the run, and the gain is their number |
| Flow.ScoreBoundedOnEveryRun | static/js/gameEngine.js:41-67 | on every run from the start, score <= questions answered <= number of questions, and a completed quiz reports that score out of the total |
| Flow.PlayFrom | static/js/gameEngine.js:30-62 | answering each remaining question by one click and the timer ends in completion, with one point per correct answer |
| Flow.Play | static/js/gameEngine.js:36-67 | a whole quiz (a non-empty list as JSON.parse delivers it) ends complete with score = the number of correct selections <= the number of questions, and the message says so |
| Flow.CountCorrect | static/js/gameEngine.js:36-41 | the number of correct selections is at most the number of questions |
| Flow.TwoQuestionScenario | static/js/gameEngine.js:36-67 | two questions keyed 1 and 2 with answers 1 and 2, answered 1 then 2, give score 2 and "Your final score is 2 out of 2." |

## Left out

- The DOM itself is left out: element lookup, `innerHTML` clearing, CSS classes, colours, the forced reflow, and the `console.error` log on the failure path (line 78). The model keeps only the texts, buttons and bar width the script writes.
- Audio playback is left out; `CheckAnswer` returns which sound would play (`Cue`).
- The 2000 ms `setTimeout` is left out; the pending timer is the `Locked` phase, and its firing is the `TimerFired` event.
- `fetch` and JSON decoding are left out. Only their two outcomes are modelled: a list of questions, or failure. A response that is not an array, or records with missing fields, are not modelled.
- Duplicate keys in the JSON text of an options object collapse into one property in JSON.parse (the last value at the first key's position). That collapse is not modelled: a fetched list must have unique keys per options object (`Quiz.WellFormed`), which is what JSON.parse delivers.
- The host page's initial contents are left out, apart from the texts passed to `Quiz.Start`. The options area is taken to start empty.
- Quiz.Percent: the source computes `Math.floor((current / total) * 100)` in floating point. The model uses integer floor division. The two agree for the 10 questions the server sends, but for some totals the float version can be one lower (29 of 100 gives 28).
- Text.ParseInt: the conversion of very long digit runs to a double is not modelled; numbers are unbounded here.
- Text.IntToString: a template literal writes a number of magnitude 10^21 or more in exponent notation (`${1e21}` is "1e+21"); the model writes every integer in plain decimal, so for such answers the wrong-answer feedback differs and `Quiz.IncorrectTextNamesAnswer` is stated only below 10^21. `Text.NatToString` shares the bound, which question numbers and scores never reach.
- The empty-list path does not model the progress bar: the source writes the width "Infinity%", which a browser rejects, so the bar is left unchanged.
- `app.py` is not part of this model: Flask routing, reading the question file, and picking 10 random questions are server plumbing. `models.py` is an ORM table with no logic. `svelte_frontend/tailwind.config.js` is build configuration.

=== FILE: flow.dfy ===
/** The quiz as an event-driven system: the events the page can receive, the invariant
    every reachable page keeps, and properties of whole runs. */
module Flow {
  import opened Wrappers
  import opened Text
  import opened PropertyOrder
  import opened Quiz

  /** What the event loop can deliver: the fetch settling either way, a click on the
      option button at a position in the options area, and the 2000 ms timer. */
  datatype Event = FetchLoaded(data: seq<Question>) | FetchFailed | Click(button: nat) | TimerFired

  /** Whether the event can happen at all on this page: the fetch settles while it is
      pending, only buttons that exist can be clicked, and the timer only runs after an
      answer. */
  predicate Deliverable(p: Page, e: Event) {
    match e
    case FetchLoaded(data) => p.session.phase.Loading? && WellFormed(data)
    case FetchFailed => p.session.phase.Loading?
    case Click(j) => j < |p.screen.buttons|
    case TimerFired => p.session.phase.Locked?
  }

  /** How many questions have been answered: those before the current one, and the
      current one once it is locked. */
  function Answered(s: Session): nat {
    if s.phase.Locked? then s.current + 1 else s.current
  }

  /** The screen shows question `i` of `qs`. */
  predicate Shows(v: Screen, qs: seq<Question>, i: nat)
    requires i < |qs|
  {
    v.question == QuestionLabel(i, qs[i]) && v.progress == Percent(i + 1, |qs|)
  }

  /** What holds of every page the quiz can reach. */
  predicate Inv(p: Page) {
    var s, v := p.session, p.screen;
    && s.current <= |s.questions|
    && s.score <= Answered(s) <= |s.questions|
    && WellFormed(s.questions)
    && match s.phase
       case Loading =>
         s.questions == [] && s.current == 0 && s.score == 0 && v.buttons == []
       case Failed =>
         s.questions == [] && s.current == 0 && s.score == 0 && v.buttons == []
         && v.question == FailedText
       case Unanswered =>
         s.current < |s.questions| && Shows(v, s.questions, s.current)
         && v.buttons == FreshButtons(s.questions[s.current]) && v.feedback == ""
       case Locked =>
         s.current < |s.questions| && Shows(v, s.questions, s.current)
         && v.buttons == DisableAll(FreshButtons(s.questions[s.current]))
         && v.scoreText == ScoreText(s.score)
       case Complete =>
         s.current == |s.questions| > 0 && v.buttons == [] && v.question == CompleteBanner
         && v.feedback == FinalMessage(s.score, |s.questions|)
  }

  /** One event. A click on a disabled button does nothing; a click on an enabled one runs
      checkAnswer with the arguments its handler captured. */
  function Step(p: Page, e: Event): (r: Page)
    requires Inv(p) && Deliverable(p, e)
    ensures Inv(r)
    ensures r.session.score == p.session.score || r.session.score == p.session.score + 1
    ensures r.session.score == p.session.score + 1 ==>
      p.session.phase.Unanswered? && r.session.phase.Locked? && r.session.current == p.session.current
    ensures Answered(p.session) <= Answered(r.session)
    ensures !p.session.phase.Loading? ==> r.session.questions == p.session.questions
  {
    match e
    case FetchLoaded(data) => OnFetchLoaded(p, data)
    case FetchFailed => OnFetchFailed(p)
    case Click(j) =>
      var b := p.screen.buttons[j];
      if b.enabled then CheckAnswer(p, b.selected, b.correct).0 else p
    case TimerFired => LoadNextQuestion(p)
  }

  /** A sequence of events from page `p`; `None` if one of them cannot be delivered. */
  function Run(p: Page, events: seq<Event>): (r: Option<Page>)
    requires Inv(p)
    ensures r.Some? ==> Inv(r.value)
    ensures r.Some? ==> p.session.score <= r.value.session.score
    ensures r.Some? ==> Answered(p.session) <= Answered(r.value.session)
    decreases |events|
  {
    if events == [] then Some(p)
    else if !Deliverable(p, events[0]) then None
    else Run(Step(p, events[0]), events[1..])
  }

  /** The current question at each event of a run that raised the score. */
  function Scored(p: Page, events: seq<Event>): seq<nat>
    requires Inv(p)
    decreases |events|
  {
    if events == [] || !Deliverable(p, events[0]) then []
    else
      var q := Step(p, events[0]);
      (if q.session.score > p.session.score then [p.session.current] else []) + Scored(q, events[1..])
  }

  /** The initial page satisfies the invariant, with nothing loaded and nothing scored. */
  lemma StartInv(question: string, feedback: string, scoreText: string, progress: nat)
    ensures Inv(Start(question, feedback, scoreText, progress))
    ensures Answered(Start(question, feedback, scoreText, progress).session) == 0
  {
  }

  /** A successful fetch of a non-empty list renders its first question: "Q1: ...", the
      first step of the progress bar, and one enabled button per option. */
  lemma FirstQuestionRendered(data: seq<Question>, question: string, feedback: string,
                              scoreText: string, progress: nat)
    requires |data| > 0 && WellFormed(data)
    ensures var r := Step(Start(question, feedback, scoreText, progress), FetchLoaded(data));
      && r.session == Session(data, 0, 0, Unanswered)
      && r.screen.question == "Q1: " + data[0].prompt
      && r.screen.progress == Percent(1, |data|)
      && r.screen.feedback == ""
      && |r.screen.buttons| == |data[0].options|
      && (forall k :: 0 <= k < |r.screen.buttons| ==> r.screen.buttons[k].enabled)
  {
    StartInv(question, feedback, scoreText, progress);
    assert NatToString(1) == "1";
  }

  /** After a failed fetch nothing is on offer: no option buttons, and no event can be
      delivered any more. */
  lemma FailureIsTerminal(p: Page)
    requires Inv(p) && p.session.phase.Loading?
    ensures var r := Step(p, FetchFailed);
      && r.screen.question == FailedText && r.screen.buttons == []
      && forall e :: !Deliverable(r, e)
  {
  }

  /** Completion is terminal: no event can be delivered to a completed quiz. */
  lemma CompleteIsTerminal(p: Page, e: Event)
    requires Inv(p) && p.session.phase.Complete?
    ensures !Deliverable(p, e)
  {
  }

  /** Because a parsed options object has each key once, an unanswered question offers
      exactly one button per distinct key. */
  lemma OneButtonPerKey(p: Page)
    requires Inv(p) && p.session.phase.Unanswered?
    ensures var q := p.session.questions[p.session.current];
      && |p.screen.buttons| == |q.options|
      && UniqueKeys(EnumerationOrder(q.options))
  {
    EnumerationOrderUniqueKeys(p.session.questions[p.session.current].options);
  }

  /** Once a question is answered its buttons are disabled, so a second click changes
      nothing, the score least of all. */
  lemma SecondClickIgnored(p: Page, j: nat)
    requires Inv(p) && p.session.phase.Locked? && j < |p.screen.buttons|
    ensures Step(p, Click(j)) == p
  {
  }

  /** Answering the current question: the score rises by one exactly when the chosen
      option's key parses to the integral answer; the question stays the same, every
      button is disabled, and a wrong answer's feedback names the right one. */
  lemma ClickScoresIffCorrect(p: Page, j: nat)
    requires Inv(p) && p.session.phase.Unanswered? && j < |p.screen.buttons|
    ensures var q := p.session.questions[p.session.current];
      var key := EnumerationOrder(q.options)[j].key;
      var r := Step(p, Click(j));
      && r.session.phase.Locked?
      && r.session.current == p.session.current
      && (r.session.score == p.session.score + 1 <==> Matches(ParseInt(key), q.answer))
      && (r.session.score == p.session.score <==> !Matches(ParseInt(key), q.answer))
      && (forall k :: 0 <= k < |r.screen.buttons| ==> !r.screen.buttons[k].enabled)
      && (!Matches(ParseInt(key), q.answer) ==> r.screen.feedback == IncorrectText(q.answer))
  {
  }

  /** Advancing moves to the next question; if there is one it is rendered with its index
      in range, otherwise the quiz is complete. */
  lemma TimerAdvances(p: Page)
    requires Inv(p) && p.session.phase.Locked?
    ensures AdvancedByTimer(p, Step(p, TimerFired))
  {
    assert Step(p, TimerFired) == LoadNextQuestion(p);
    NextQuestion(p);
  }

  /** What the timer's callback does to a locked page `p`, giving `r`: the index moves on
      by one with the score kept; the next question, if any, is shown with cleared
      feedback and fresh buttons, and otherwise the quiz is complete. */
  predicate AdvancedByTimer(p: Page, r: Page) {
    && r.session.current == p.session.current + 1
    && r.session.score == p.session.score
    && (r.session.current < |r.session.questions| ==>
          r.session.phase.Unanswered?
          && Shows(r.screen, r.session.questions, r.session.current)
          && r.screen.feedback == ""
          && r.screen.buttons == FreshButtons(r.session.questions[r.session.current]))
    && (r.session.current == |r.session.questions| ==> r.session.phase.Complete?)
  }

  /** `TimerAdvances` without the invariant in scope, which keeps the proof small. */
  lemma NextQuestion(p: Page)
    requires p.session.phase.Locked? && p.session.current < |p.session.questions|
    ensures AdvancedByTimer(p, LoadNextQuestion(p))
  {
    var qs, i := p.session.questions, p.session.current + 1;
    if i < |qs| {
      var v := LoadQuestion(qs, i, p.screen);
      assert LoadNextQuestion(p).screen == v;
      assert v.question == QuestionLabel(i, qs[i]) && v.progress == Percent(i + 1, |qs|);
    }
  }

  /** Each question scores at most once: along any run the questions at which the score
      rose are strictly increasing, all of them answered during the run, and the score
      gained is their number. */
  lemma {:induction false} EachQuestionScoresAtMostOnce(p: Page, events: seq<Event>, r: Page, sc: seq<nat>)
    requires Inv(p) && Run(p, events) == Some(r) && sc == Scored(p, events)
    ensures r.session.score == p.session.score + |sc|
    ensures Ascending(sc)
    ensures forall i :: 0 <= i < |sc| ==> Answered(p.session) <= sc[i] < Answered(r.session)
    decreases |events|
  {
    if events != [] {
      var q := Step(p, events[0]);
      var rest := Scored(q, events[1..]);
      RunUnfold(p, events);
      EachQuestionScoresAtMostOnce(q, events[1..], r, rest);
      assert Answered(q.session) <= Answered(r.session);
      if q.session.score > p.session.score {
        PrependBelow(p.session.current, rest, Answered(q.session), Answered(r.session));
      }
    }
  }

  lemma RunUnfold(p: Page, events: seq<Event>)
    requires Inv(p) && events != [] && Run(p, events).Some?
    ensures Deliverable(p, events[0])
    ensures var q := Step(p, events[0]);
      && Run(p, events) == Run(q, events[1..])
      && Scored(p, events)
         == (if q.session.score > p.session.score then [p.session.current] else [])
            + Scored(q, events[1..])
  {
  }

  predicate Ascending(s: seq<nat>) {
    forall i, j :: 0 <= i < j < |s| ==> s[i] < s[j]
  }

  lemma PrependBelow(x: nat, rest: seq<nat>, bound: nat, hi: nat)
    requires Ascending(rest) && x < bound <= hi
    requires forall i :: 0 <= i < |rest| ==> bound <= rest[i] < hi
    ensures Ascending([x] + rest)
    ensures forall i :: 0 <= i < |[x] + rest| ==> x <= ([x] + rest)[i] < hi
  {
  }

  /** Over any run from the start, the score never exceeds the questions answered, which
      never exceed the questions; a completed quiz reports that score out of the total. */
  lemma ScoreBoundedOnEveryRun(events: seq<Event>, question: string, feedback: string,
                               scoreText: string, progress: nat)
    requires Run(Start(question, feedback, scoreText, progress), events).Some?
    ensures var r := Run(Start(question, feedback, scoreText, progress), events).value;
      && r.session.score <= Answered(r.session) <= |r.session.questions|
      && (r.session.phase.Complete? ==>
            r.screen.feedback == FinalMessage(r.session.score, |r.session.questions|)
            && r.session.score <= |r.session.questions|)
  {
    StartInv(question, feedback, scoreText, progress);
  }

  /** The events of answering every question in turn: a click on the chosen button, then
      the timer. */
  function Answers(picks: seq<nat>): (es: seq<Event>)
    ensures |es| == 2 * |picks|
  {
    if picks == [] then [] else [Click(picks[0]), TimerFired] + Answers(picks[1..])
  }

  /** One chosen button position per question, each naming an existing option. */
  predicate ValidPicks(qs: seq<Question>, picks: seq<nat>) {
    |picks| == |qs| && forall k :: 0 <= k < |qs| ==> picks[k] < |qs[k].options|
  }

  /** Whether the button at position `pick` answers `q` correctly. */
  predicate IsCorrect(q: Question, pick: nat)
    requires pick < |q.options|
  {
    Matches(FreshButtons(q)[pick].selected, q.answer)
  }

  /** The number of questions answered correctly. */
  function CountCorrect(qs: seq<Question>, picks: seq<nat>): (n: nat)
    requires ValidPicks(qs, picks)
    ensures n <= |qs|
  {
    if qs == [] then 0
    else (if IsCorrect(qs[0], picks[0]) then 1 else 0) + CountCorrect(qs[1..], picks[1..])
  }

  lemma RunTwo(p: Page, a: Event, b: Event, rest: seq<Event>)
    requires Inv(p) && Deliverable(p, a) && Deliverable(Step(p, a), b)
    ensures Run(p, [a, b] + rest) == Run(Step(Step(p, a), b), rest)
  {
    assert [a, b] + rest == [a] + ([b] + rest);
    RunCons(p, a, [b] + rest);
    RunCons(Step(p, a), b, rest);
  }

  lemma RunCons(p: Page, e: Event, rest: seq<Event>)
    requires Inv(p) && Deliverable(p, e)
    ensures Run(p, [e] + rest) == Run(Step(p, e), rest)
  {
    var es := [e] + rest;
    assert es[0] == e && es[1..] == rest;
  }

  /** Answering the remaining questions from an unanswered page ends in completion with
      one more point per correct answer. */
  lemma {:induction false} PlayFrom(p: Page, picks: seq<nat>)
    requires Inv(p) && p.session.phase.Unanswered?
    requires ValidPicks(p.session.questions[p.session.current..], picks)
    ensures var r := Run(p, Answers(picks));
      && r.Some?
      && r.value.session.phase.Complete?
      && r.value.session.questions == p.session.questions
      && r.value.session.score
         == p.session.score + CountCorrect(p.session.questions[p.session.current..], picks)
    decreases |picks|
  {
    var qs, i := p.session.questions, p.session.current;
    AnswerOne(p, picks[0]);
    var p2 := Step(Step(p, Click(picks[0])), TimerFired);
    RunTwo(p, Click(picks[0]), TimerFired, Answers(picks[1..]));
    CountCorrectFrom(qs, i, picks);
    if i + 1 < |qs| {
      PlayFrom(p2, picks[1..]);
    } else {
      assert picks[1..] == [];
    }
  }

  /** Clicking button `pick` and waiting for the timer answers the current question and
      moves to the next. */
  lemma AnswerOne(p: Page, pick: nat)
    requires Inv(p) && p.session.phase.Unanswered?
    requires pick < |p.session.questions[p.session.current].options|
    ensures Deliverable(p, Click(pick))
    ensures var p1 := Step(p, Click(pick));
      && Deliverable(p1, TimerFired)
      && var p2 := Step(p1, TimerFired);
      && p2.session.questions == p.session.questions
      && p2.session.current == p.session.current + 1
      && p2.session.score == p.session.score
           + (if IsCorrect(p.session.questions[p.session.current], pick) then 1 else 0)
      && (p2.session.current < |p2.session.questions| ==> p2.session.phase.Unanswered?)
      && (p2.session.current == |p2.session.questions| ==> p2.session.phase.Complete?)
  {
    var q := p.session.questions[p.session.current];
    var b := FreshButtons(q)[pick];
    assert Step(p, Click(pick)) == CheckAnswer(p, b.selected, b.correct).0;
  }

  lemma CountCorrectFrom(qs: seq<Question>, i: nat, picks: seq<nat>)
    requires i < |qs| && ValidPicks(qs[i..], picks)
    ensures picks[0] < |qs[i].options|
    ensures ValidPicks(qs[i + 1..], picks[1..])
    ensures CountCorrect(qs[i..], picks)
            == (if IsCorrect(qs[i], picks[0]) then 1 else 0) + CountCorrect(qs[i + 1..], picks[1..])
  {
    var tail := qs[i..];
    assert tail[0] == qs[i];
    assert tail[1..] == qs[i + 1..];
    forall k | 0 <= k < |qs[i + 1..]|
      ensures picks[1..][k] < |qs[i + 1..][k].options|
    {
      assert qs[i + 1..][k] == tail[k + 1];
    }
  }

  /** A whole quiz: the list loads, every question is answered by clicking one option and
      waiting for the timer. The quiz then completes with a score equal to the number of
      correct answers, at most the number of questions, and says so. */
  lemma Play(qs: seq<Question>, picks: seq<nat>, question: string, feedback: string,
             scoreText: string, progress: nat)
    requires |qs| > 0 && WellFormed(qs) && ValidPicks(qs, picks)
    ensures var r := Run(Start(question, feedback, scoreText, progress), [FetchLoaded(qs)] + Answers(picks));
      && r.Some?
      && r.value.session.phase.Complete?
      && r.value.session.score == CountCorrect(qs, picks) <= |qs|
      && r.value.screen.feedback == FinalMessage(CountCorrect(qs, picks), |qs|)
  {
    var p := Start(question, feedback, scoreText, progress);
    StartInv(question, feedback, scoreText, progress);
    var p1 := Step(p, FetchLoaded(qs));
    RunCons(p, FetchLoaded(qs), Answers(picks));
    assert p1.session == Session(qs, 0, 0, Unanswered);
    assert qs[0..] == qs;
    PlayFrom(p1, picks);
  }

  /** Two questions with options 1 and 2, answered 1 and 2; choosing 1 and then 2 scores
      both and ends with "Your final score is 2 out of 2." */
  lemma TwoQuestionScenario(qs: seq<Question>, picks: seq<nat>, question: string,
                            feedback: string, scoreText: string, progress: nat)
    requires qs == [Question("first", [Entry("1", "A"), Entry("2", "B")], IntAnswer(1)),
                    Question("second", [Entry("1", "C"), Entry("2", "D")], IntAnswer(2))]
    requires picks == [0, 1]
    ensures var r := Run(Start(question, feedback, scoreText, progress), [FetchLoaded(qs)] + Answers(picks));
      && r.Some?
      && r.value.session.score == 2
      && r.value.screen.feedback == "Your final score is 2 out of 2."
  {
    TwoQuestionCount(qs, picks);
    TwoQuestionsWellFormed(qs);
    Play(qs, picks, question, feedback, scoreText, progress);
    FinalTwoOfTwo();
  }

  lemma TwoQuestionCount(qs: seq<Question>, picks: seq<nat>)
    requires qs == [Question("first", [Entry("1", "A"), Entry("2", "B")], IntAnswer(1)),
                    Question("second", [Entry("1", "C"), Entry("2", "D")], IntAnswer(2))]
    requires picks == [0, 1]
    ensures |qs| == 2 && ValidPicks(qs, picks) && CountCorrect(qs, picks) == 2
  {
    OneTwoCorrect(qs[0], 0);
    OneTwoCorrect(qs[1], 1);
    CountTwo(qs[0], qs[1], 0, 1);
  }

  lemma TwoQuestionsWellFormed(qs: seq<Question>)
    requires qs == [Question("first", [Entry("1", "A"), Entry("2", "B")], IntAnswer(1)),
                    Question("second", [Entry("1", "C"), Entry("2", "D")], IntAnswer(2))]
    ensures WellFormed(qs)
  {
    TwoKeysUnique(qs[0].options);
    TwoKeysUnique(qs[1].options);
  }

  lemma TwoKeysUnique(es: seq<Entry>)
    requires |es| == 2 && es[0].key == "1" && es[1].key == "2"
    ensures UniqueKeys(es)
  {
    assert es[0].key[0] != es[1].key[0];
  }

  lemma CountTwo(q0: Question, q1: Question, p0: nat, p1: nat)
    requires p0 < |q0.options| && p1 < |q1.options|
    requires IsCorrect(q0, p0) && IsCorrect(q1, p1)
    ensures ValidPicks([q0, q1], [p0, p1]) && CountCorrect([q0, q1], [p0, p1]) == 2
  {
    var qs, picks := [q0, q1], [p0, p1];
    assert ValidPicks(qs, picks) by {
      assert qs[0] == q0 && qs[1] == q1 && picks[0] == p0 && picks[1] == p1;
    }
    assert qs[0..] == qs;
    CountCorrectFrom(qs, 0, picks);
    CountCorrectFrom(qs, 1, picks[1..]);
    assert qs[2..] == [];
  }

  /** With options keyed "1" and "2", the button at position `pick` is the right one when
      the answer is `pick + 1`. */
  lemma OneTwoCorrect(q: Question, pick: nat)
    requires |q.options| == 2 && q.options[0].key == "1" && q.options[1].key == "2"
    requires pick < 2 && q.answer == IntAnswer(pick + 1)
    ensures IsCorrect(q, pick)
  {
    assert q.options == [q.options[0], q.options[1]];
    TwoIndexKeys(q.options[0], q.options[1]);
    IndexKeyScoresIff(q.options[pick], q.answer);
    assert FreshButtons(q)[pick] == OptionButton(q.options[pick], q.answer);
  }

  lemma FinalTwoOfTwo()
    ensures FinalMessage(2, 2) == "Your final score is 2 out of 2."
  {
    FinalMessageExample(2, 2);
    assert DecimalDigit(2) == '2';
  }

  /** Options keyed "1" and "2", in that order, are visited in that order. */
  lemma TwoIndexKeys(a: Entry, b: Entry)
    requires a.key == "1" && b.key == "2"
    ensures EnumerationOrder([a, b]) == [a, b]
  {
    assert IsArrayIndex(a.key) && Value(a.key, 10) == 1;
    assert IsArrayIndex(b.key) && Value(b.key, 10) == 2;
    assert [a, b][1..] == [b] && [b][1..] == [];
    assert IndexKeyed([b]) == [b];
    assert IndexKeyed([a, b]) == [a, b];
    assert NameKeyed([b]) == [];
    assert NameKeyed([a, b]) == [];
    assert SortByIndex([b]) == [b];
    assert SortByIndex([a, b]) == Insert(a, [b]) by {
      assert [a, b][1..] == [b];
    }
  }
}

=== FILE: property_order.dfy ===
/** The order in which `for (let key in q.options)` visits the keys of an options object
    parsed from JSON. For such an ordinary object, ECMA-262 (section 10.1.11.1,
    OrdinaryOwnPropertyKeys) lists the keys that are array indices first, in ascending
    numeric order, and then the other string keys in the order they were created, which
    for JSON.parse is the order they appear in the text. */
module PropertyOrder {
  import opened Text

  /** One own property of an options object: its key and the option text. */
  datatype Entry = Entry(key: string, text: string)

  /** The largest array index, 2^32 - 2 (section 6.1.7 of ECMA-262). */
  const MaxArrayIndex: nat := 4294967294

  /** A key is an array index when it is the canonical numeral of an integer in
      0 .. 2^32 - 2. */
  predicate IsArrayIndex(key: string) {
    IsCanonical(key) && Value(key, 10) <= MaxArrayIndex
  }

  function IndexOf(e: Entry): nat {
    Value(e.key, 10)
  }

  /** An object built by JSON.parse has each key at most once: a repeated key in the
      text overwrites the earlier property's value. */
  predicate UniqueKeys(es: seq<Entry>) {
    forall i, j :: 0 <= i < j < |es| ==> es[i].key != es[j].key
  }

  /** The entries whose keys are array indices, in creation order. */
  function IndexKeyed(es: seq<Entry>): (r: seq<Entry>)
    ensures |r| <= |es|
    ensures forall i :: 0 <= i < |r| ==> IsArrayIndex(r[i].key)
  {
    if es == [] then []
    else if IsArrayIndex(es[0].key) then [es[0]] + IndexKeyed(es[1..])
    else IndexKeyed(es[1..])
  }

  /** `a` is `b` with some entries left out: the entries of `a` occur in `b` in the same
      order. */
  predicate IsSubsequence(a: seq<Entry>, b: seq<Entry>)
    decreases |b|
  {
    a == [] || (b != [] && ((a[0] == b[0] && IsSubsequence(a[1..], b[1..])) || IsSubsequence(a, b[1..])))
  }

  /** The entries whose keys are not array indices, in creation order. */
  function NameKeyed(es: seq<Entry>): (r: seq<Entry>)
    ensures forall i :: 0 <= i < |r| ==> !IsArrayIndex(r[i].key)
    ensures IsSubsequence(r, es)
  {
    if es == [] then []
    else if IsArrayIndex(es[0].key) then NameKeyed(es[1..])
    else [es[0]] + NameKeyed(es[1..])
  }

  /** Splitting by kind of key loses and invents no entry. */
  lemma {:induction false} SplitKeys(es: seq<Entry>)
    ensures multiset(IndexKeyed(es)) + multiset(NameKeyed(es)) == multiset(es)
  {
    if es != [] {
      SplitKeys(es[1..]);
      assert es == [es[0]] + es[1..];
    }
  }

  predicate SortedByIndex(es: seq<Entry>) {
    forall i, j :: 0 <= i < j < |es| ==> IndexOf(es[i]) <= IndexOf(es[j])
  }

  /** `e` inserted into an ascending sequence, keeping it ascending. */
  function Insert(e: Entry, es: seq<Entry>): (r: seq<Entry>)
    requires SortedByIndex(es)
    ensures |r| == |es| + 1
    ensures multiset(r) == multiset(es) + multiset{e}
    ensures forall i :: 0 <= i < |r| ==> r[i] == e || r[i] in es
    ensures SortedByIndex(r)
  {
    if es == [] then [e]
    else if IndexOf(e) <= IndexOf(es[0]) then [e] + es
    else
      var tail := Insert(e, es[1..]);
      HeadBelowInsert(e, es, tail);
      [es[0]] + tail
  }

  lemma HeadBelowInsert(e: Entry, es: seq<Entry>, tail: seq<Entry>)
    requires SortedByIndex(es) && es != [] && IndexOf(es[0]) < IndexOf(e)
    requires SortedByIndex(tail)
    requires |tail| == |es|
    requires multiset(tail) == multiset(es[1..]) + multiset{e}
    requires forall i :: 0 <= i < |tail| ==> tail[i] == e || tail[i] in es[1..]
    ensures var r := [es[0]] + tail;
      && |r| == |es| + 1
      && multiset(r) == multiset(es) + multiset{e}
      && (forall i :: 0 <= i < |r| ==> r[i] == e || r[i] in es)
      && SortedByIndex(r)
  {
    var r := [es[0]] + tail;
    assert es == [es[0]] + es[1..];
    assert multiset(r) == multiset{es[0]} + multiset(tail);
    forall i | 0 <= i < |r|
      ensures r[i] == e || r[i] in es
    {
      if i > 0 {
        assert r[i] == tail[i - 1];
      }
    }
    forall i | 0 <= i < |tail|
      ensures IndexOf(es[0]) <= IndexOf(tail[i])
    {
      if tail[i] != e {
        var k :| 0 <= k < |es[1..]| && es[1..][k] == tail[i];
        assert es[k + 1] == tail[i];
      }
    }
    forall i, j | 0 <= i < j < |r|
      ensures IndexOf(r[i]) <= IndexOf(r[j])
    {
      if i > 0 {
        assert r[i] == tail[i - 1] && r[j] == tail[j - 1];
      } else {
        assert r[j] == tail[j - 1];
      }
    }
  }

  /** The entries in ascending order of their numeric keys. */
  function SortByIndex(es: seq<Entry>): (r: seq<Entry>)
    ensures multiset(r) == multiset(es)
    ensures SortedByIndex(r)
  {
    if es == [] then []
    else
      assert es == [es[0]] + es[1..];
      Insert(es[0], SortByIndex(es[1..]))
  }

  /** The keys of an options object in the order a for-in loop visits them. */
  function EnumerationOrder(es: seq<Entry>): (r: seq<Entry>)
    ensures |r| == |es|
    ensures multiset(r) == multiset(es)
  {
    SplitKeys(es);
    assert |multiset(es)| == |es|;
    SortByIndex(IndexKeyed(es)) + NameKeyed(es)
  }

  /** The enumeration visits every own property once: the array-index keys come first
      and in ascending numeric order, and the remaining keys follow in creation order. */
  lemma EnumerationOrderSpec(es: seq<Entry>)
    ensures var r := EnumerationOrder(es);
      var n := |IndexKeyed(es)|;
      && multiset(r) == multiset(es)
      && n <= |r|
      && (forall i :: 0 <= i < |r| ==> (IsArrayIndex(r[i].key) <==> i < n))
      && SortedByIndex(r[..n])
      && r[n..] == NameKeyed(es)
  {
    var r := EnumerationOrder(es);
    var sorted := SortByIndex(IndexKeyed(es));
    SplitKeys(es);
    assert |sorted| == |IndexKeyed(es)| by {
      assert |multiset(sorted)| == |multiset(IndexKeyed(es))|;
    }
    assert r[..|sorted|] == sorted;
    forall i | 0 <= i < |sorted|
      ensures IsArrayIndex(sorted[i].key)
    {
      assert sorted[i] in multiset(IndexKeyed(es));
    }
  }

  /** The keys that are not array indices are visited in creation order: after the
      array-index keys come all entries of `es` whose keys are not array indices, as
      often as they occur there, in the order they occur there. */
  lemma NamesKeepCreationOrder(es: seq<Entry>)
    ensures var r := EnumerationOrder(es);
      var n := |IndexKeyed(es)|;
      && n <= |r|
      && IsSubsequence(r[n..], es)
      && (forall k :: n <= k < |r| ==> !IsArrayIndex(r[k].key))
      && (forall e: Entry :: !IsArrayIndex(e.key) ==> multiset(r[n..])[e] == multiset(es)[e])
  {
    var r := EnumerationOrder(es);
    var sorted := SortByIndex(IndexKeyed(es));
    var n := |IndexKeyed(es)|;
    SplitKeys(es);
    assert |sorted| == n by {
      assert |multiset(sorted)| == |multiset(IndexKeyed(es))|;
    }
    assert r[n..] == NameKeyed(es) && r[..n] == sorted;
    forall e: Entry | !IsArrayIndex(e.key)
      ensures multiset(r[n..])[e] == multiset(es)[e]
    {
      assert e !in IndexKeyed(es);
    }
  }

  /** An entry that occurs twice in a sequence counts twice in its multiset. */
  lemma RepeatedEntryCountsTwice(s: seq<Entry>, i: nat, j: nat)
    requires i < j < |s| && s[i] == s[j]
    ensures multiset(s)[s[i]] >= 2
  {
    assert s == s[..j] + [s[j]] + s[j + 1..];
    assert s[..j][i] == s[i];
  }

  /** With unique keys, no entry occurs twice. */
  lemma {:induction false} UniqueKeysAtMostOnce(es: seq<Entry>, x: Entry)
    requires UniqueKeys(es)
    ensures multiset(es)[x] <= 1
  {
    if es != [] {
      var tail := es[1..];
      assert UniqueKeys(tail) by {
        forall i, j | 0 <= i < j < |tail|
          ensures tail[i].key != tail[j].key
        {
          assert tail[i] == es[i + 1] && tail[j] == es[j + 1];
        }
      }
      UniqueKeysAtMostOnce(tail, x);
      assert es == [es[0]] + tail;
      if x == es[0] {
        forall k | 0 <= k < |tail|
          ensures tail[k] != x
        {
          assert tail[k] == es[k + 1];
        }
      }
    }
  }

  /** Enumerating an object whose keys are unique visits each key once. */
  lemma EnumerationOrderUniqueKeys(es: seq<Entry>)
    requires UniqueKeys(es)
    ensures UniqueKeys(EnumerationOrder(es))
  {
    var r := EnumerationOrder(es);
    EnumerationOrderSpec(es);
    forall i, j | 0 <= i < j < |r|
      ensures r[i].key != r[j].key
    {
      assert r[i] in multiset(es) && r[j] in multiset(es);
      if r[i] == r[j] {
        RepeatedEntryCountsTwice(r, i, j);
        UniqueKeysAtMostOnce(es, r[i]);
      }
    }
  }

  /** For an object built by JSON.parse the distinct-keys requirement of
      `ArrayIndicesStrictlyAscend` always holds, so the array-index keys are visited in
      strictly ascending numeric order. */
  lemma IndexKeysStrictlyAscend(es: seq<Entry>)
    requires UniqueKeys(es)
    ensures var r := EnumerationOrder(es);
      forall i, j :: 0 <= i < j < |IndexKeyed(es)| ==> IndexOf(r[i]) < IndexOf(r[j])
  {
    EnumerationOrderUniqueKeys(es);
    forall i, j | 0 <= i < j < |IndexKeyed(es)|
      ensures IndexOf(EnumerationOrder(es)[i]) < IndexOf(EnumerationOrder(es)[j])
    {
      ArrayIndicesStrictlyAscend(es, i, j);
    }
  }

  /** Array-index keys that differ are visited in strictly ascending numeric order. */
  lemma ArrayIndicesStrictlyAscend(es: seq<Entry>, i: nat, j: nat)
    requires i < j < |IndexKeyed(es)|
    requires EnumerationOrder(es)[i].key != EnumerationOrder(es)[j].key
    ensures IndexOf(EnumerationOrder(es)[i]) < IndexOf(EnumerationOrder(es)[j])
  {
    var r := EnumerationOrder(es);
    EnumerationOrderSpec(es);
    var n := |IndexKeyed(es)|;
    assert r[..n][i] == r[i] && r[..n][j] == r[j];
    if IndexOf(r[i]) == IndexOf(r[j]) {
      NatToStringOfValue(r[i].key);
      NatToStringOfValue(r[j].key);
    }
  }

  /** The array indices are exactly the numerals of 0 .. 2^32 - 2, one way ... */
  lemma ArrayIndexOfNat(n: nat)
    requires n <= MaxArrayIndex
    ensures IsArrayIndex(NatToString(n))
  {
  }

  /** ... and the other. */
  lemma ArrayIndexIsNumeral(key: string)
    requires IsArrayIndex(key)
    ensures key == NatToString(Value(key, 10))
  {
    NatToStringOfValue(key);
  }
}

=== FILE: quiz.dfy ===
/** The quiz controller of static/js/gameEngine.js. Its three globals (`quizData`,
    `currentQuestion`, `currentScore`) are a `Session`; the parts of the document it
    writes are a `Screen`; each of its functions is a pure transition on a `Page`, the
    two together. The phase records what the script is waiting for: the fetch
    (Loading), a click on an option (Unanswered), the 2000 ms timer after an answer
    (Locked), or nothing any more (Failed, Complete). */
module Quiz {
  import opened Wrappers
  import opened Text
  import opened PropertyOrder

  /** The `answer` field of a question. Only an integral number can ever be `===` to what
      parseInt returns; any other JSON value (a string, a fraction, null) is kept with
      the text a template literal makes of it. */
  datatype Answer = IntAnswer(value: int) | OtherAnswer(shown: string)

  /** One element of the fetched array: `question`, `options` and `answer`. */
  datatype Question = Question(prompt: string, options: seq<Entry>, answer: Answer)

  /** What JSON.parse guarantees of a fetched array: every options object has each key
      at most once. */
  predicate WellFormed(qs: seq<Question>) {
    forall k :: 0 <= k < |qs| ==> UniqueKeys(qs[k].options)
  }

  datatype Phase = Loading | Failed | Unanswered | Locked | Complete

  datatype Session = Session(questions: seq<Question>, current: nat, score: nat, phase: Phase)

  /** An option button: its text, the two arguments its click handler passes to
      checkAnswer (parseInt of the key, and the question's answer), and whether it is
      still enabled. */
  datatype Button = Button(text: string, selected: Option<int>, correct: Answer, enabled: bool)

  /** The document elements the script writes: the question text, the buttons in the
      options area, the feedback text, the score readout and the progress bar width in
      percent. */
  datatype Screen = Screen(question: string, buttons: seq<Button>, feedback: string,
                           scoreText: string, progress: nat)

  datatype Page = Page(session: Session, screen: Screen)

  /** The sound checkAnswer plays. */
  datatype Cue = CorrectCue | IncorrectCue

  /** From 10^21 on, a template literal writes a number in exponent notation
      ("1e+21"), so the decimal model of `${correct}` holds below this bound. */
  const MaxPlainNumeral: int := 1_000_000_000_000_000_000_000

  const FailedText := "Failed to load quiz."
  const CorrectText := "\U{2705} Correct!"
  const IncorrectPrefix := "\U{274C} Incorrect. The correct answer is "
  const CompleteBanner := "\U{1F389} Quiz Complete!"

  /** `${correct}` */
  function AnswerText(a: Answer): string {
    match a
    case IntAnswer(n) => IntToString(n)
    case OtherAnswer(shown) => shown
  }

  /** The feedback after a wrong answer: the fixed wording, then the correct answer as
      a template literal writes it, then a full stop. */
  function IncorrectText(correct: Answer): (text: string)
    ensures |IncorrectPrefix| < |text| && text[..|IncorrectPrefix|] == IncorrectPrefix
    ensures text[|text| - 1] == '.'
  {
    IncorrectPrefix + AnswerText(correct) + "."
  }

  /** The score readout: after "Score: ", parseInt reads back the score. */
  function ScoreText(score: nat): (text: string)
    ensures |text| > 7 && text[..7] == "Score: "
    ensures ParseInt(text[7..]) == Some(score)
  {
    var text := "Score: " + NatToString(score);
    assert text[7..] == IntToString(score) + [];
    ParseIntOfIntToString(score, []);
    text
  }

  /** The question text: "Q", the 1-based number, ": ", then the prompt itself. */
  function QuestionLabel(index: nat, q: Question): (caption: string)
    ensures |caption| > |q.prompt| + 2 && caption[0] == 'Q'
    ensures caption[|caption| - |q.prompt| - 2..] == ": " + q.prompt
  {
    "Q" + NatToString(index + 1) + ": " + q.prompt
  }

  /** The completion message, "Your final score is s out of t." */
  function FinalMessage(score: nat, total: nat): (text: string)
    ensures |text| > 20 && text[..20] == "Your final score is "
    ensures text[|text| - 1] == '.'
  {
    "Your final score is " + NatToString(score) + " out of " + NatToString(total) + "."
  }

  /** `selected === correct`: parseInt gives NaN or an integral number, and strict
      equality holds only between two numbers of equal value, NaN equalling nothing. */
  function Matches(selected: Option<int>, correct: Answer): (m: bool)
    ensures selected.None? ==> !m
    ensures correct.OtherAnswer? ==> !m
    ensures selected.Some? && correct == IntAnswer(selected.value) ==> m
    ensures selected.Some? && correct.IntAnswer? && selected.value != correct.value ==> !m
  {
    selected.Some? && correct.IntAnswer? && selected.value == correct.value
  }

  /** updateProgressBar(current, total): the bar width, `current / total` in whole percent
      rounded down. */
  function Percent(current: nat, total: nat): (pct: nat)
    requires total > 0
    ensures pct * total <= current * 100 < (pct + 1) * total
  {
    current * 100 / total
  }

  /** The button loadQuestion creates for one key of `q.options`. */
  function OptionButton(e: Entry, correct: Answer): (b: Button)
    ensures b.enabled && b.correct == correct
    ensures |e.key| <= |b.text| && b.text[..|e.key|] == e.key
    ensures IsArrayIndex(e.key) ==> b.selected == Some(Value(e.key, 10))
  {
    var b := Button(e.key + ". " + e.text, ParseInt(e.key), correct, true);
    if IsArrayIndex(e.key) then
      ParseIntOfNumeral(e.key);
      b
    else b
  }

  /** The buttons loadQuestion creates for a question, one per key, in for-in order. */
  function FreshButtons(q: Question): (bs: seq<Button>)
    ensures |bs| == |q.options|
  {
    var order := EnumerationOrder(q.options);
    seq(|order|, k requires 0 <= k < |order| => OptionButton(order[k], q.answer))
  }

  /** The same buttons, all disabled. */
  function DisableAll(bs: seq<Button>): (r: seq<Button>)
    ensures |r| == |bs|
    ensures forall k :: 0 <= k < |r| ==> !r[k].enabled && r[k] == bs[k].(enabled := false)
  {
    seq(|bs|, k requires 0 <= k < |bs| => bs[k].(enabled := false))
  }

  /** loadQuestion(index): renders question `index` and leaves the score readout as it
      was. */
  function LoadQuestion(questions: seq<Question>, index: nat, screen: Screen): (v: Screen)
    requires index < |questions|
    ensures v.question == QuestionLabel(index, questions[index])
    ensures v.feedback == ""
    ensures v.scoreText == screen.scoreText
    ensures v.progress <= 100 && (v.progress == 100 <==> index == |questions| - 1)
    ensures |v.buttons| == |questions[index].options|
    ensures forall k :: 0 <= k < |v.buttons| ==> v.buttons[k].enabled
  {
    ProgressBounds(index, |questions|);
    screen.(question := QuestionLabel(index, questions[index]),
            buttons := FreshButtons(questions[index]),
            feedback := "",
            progress := Percent(index + 1, |questions|))
  }

  /** checkAnswer(selected, correct): disables every option, then scores one point exactly
      when the selection matches. The question does not change; the 2000 ms timer it
      starts is the Locked phase. */
  function CheckAnswer(p: Page, selected: Option<int>, correct: Answer): (r: (Page, Cue))
    requires p.session.phase.Unanswered?
    ensures r.0.session.phase.Locked?
    ensures r.0.session.questions == p.session.questions
    ensures r.0.session.current == p.session.current
    ensures Matches(selected, correct) ==>
      r.0.session.score == p.session.score + 1 && r.1 == CorrectCue && r.0.screen.feedback == CorrectText
    ensures !Matches(selected, correct) ==>
      r.0.session.score == p.session.score && r.1 == IncorrectCue
      && r.0.screen.feedback == IncorrectText(correct)
    ensures r.0.screen.buttons == DisableAll(p.screen.buttons)
    ensures r.0.screen.scoreText == ScoreText(r.0.session.score)
    ensures r.0.screen.question == p.screen.question && r.0.screen.progress == p.screen.progress
  {
    var hit := Matches(selected, correct);
    var score := if hit then p.session.score + 1 else p.session.score;
    var screen := p.screen.(buttons := DisableAll(p.screen.buttons),
                            feedback := if hit then CorrectText else IncorrectText(correct),
                            scoreText := ScoreText(score));
    (Page(p.session.(score := score, phase := Locked), screen), if hit then CorrectCue else IncorrectCue)
  }

  /** showQuizComplete(): the terminal screen with the final score out of the number of
      questions. */
  function ShowQuizComplete(p: Page): (r: Page)
    ensures r.session.phase.Complete?
    ensures r.session.questions == p.session.questions
    ensures r.session.current == p.session.current && r.session.score == p.session.score
    ensures r.screen.buttons == []
    ensures r.screen.question == CompleteBanner
    ensures r.screen.feedback == FinalMessage(p.session.score, |p.session.questions|)
  {
    Page(p.session.(phase := Complete),
         p.screen.(question := CompleteBanner, buttons := [],
                   feedback := FinalMessage(p.session.score, |p.session.questions|)))
  }

  /** loadNextQuestion(): moves to the next question, rendering it if there is one and
      completing the quiz otherwise. */
  function LoadNextQuestion(p: Page): (r: Page)
    requires p.session.phase.Locked?
    ensures r.session.current == p.session.current + 1
    ensures r.session.questions == p.session.questions && r.session.score == p.session.score
    ensures r.session.current < |r.session.questions| ==>
      r.session.phase.Unanswered?
      && r.screen == LoadQuestion(r.session.questions, r.session.current, p.screen)
    ensures r.session.current >= |r.session.questions| ==>
      r.session.phase.Complete?
      && r.screen.feedback == FinalMessage(r.session.score, |r.session.questions|)
  {
    var s := p.session.(current := p.session.current + 1);
    if s.current < |s.questions| then
      Page(s.(phase := Unanswered), LoadQuestion(s.questions, s.current, p.screen))
    else
      ShowQuizComplete(Page(s, p.screen))
  }

  /** The page before the fetch settles: lines 4-6 of the script, and the host page's
      own texts. The options area starts empty. */
  function Start(question: string, feedback: string, scoreText: string, progress: nat): (p: Page)
    ensures p.session.questions == [] && p.session.current == 0 && p.session.score == 0
    ensures p.session.phase.Loading? && p.screen.buttons == []
  {
    Page(Session([], 0, 0, Loading), Screen(question, [], feedback, scoreText, progress))
  }

  /** The fetch resolved with `data`: it becomes quizData and the current question, which
      is still the first, is rendered. An empty array makes loadQuestion(0) throw inside
      the promise chain, so the catch handler's failure text is shown instead. */
  function OnFetchLoaded(p: Page, data: seq<Question>): (r: Page)
    requires p.session.phase.Loading? && p.session.current == 0
    ensures r.session.questions == data
    ensures r.session.current == 0 && r.session.score == p.session.score
    ensures |data| > 0 ==>
      r.session.phase.Unanswered? && r.screen == LoadQuestion(data, 0, p.screen)
    ensures |data| == 0 ==>
      r.session.phase.Failed? && r.screen.question == FailedText
      && r.screen.buttons == p.screen.buttons
  {
    var s := p.session.(questions := data);
    if |data| == 0 then Page(s.(phase := Failed), p.screen.(question := FailedText))
    else Page(s.(phase := Unanswered), LoadQuestion(data, s.current, p.screen))
  }

  /** The fetch or the JSON decoding failed: the failure text replaces the question and
      nothing else is loaded. */
  function OnFetchFailed(p: Page): (r: Page)
    requires p.session.phase.Loading?
    ensures r.session.phase.Failed?
    ensures r.session.questions == p.session.questions && r.session.score == p.session.score
    ensures r.screen.question == FailedText && r.screen.buttons == p.screen.buttons
  {
    Page(p.session.(phase := Failed), p.screen.(question := FailedText))
  }

  /** The bar never passes 100%, reaches it exactly on the last question, and shows at
      least 1% when there are at most 100 questions. */
  lemma ProgressBounds(index: nat, total: nat)
    requires index < total
    ensures Percent(index + 1, total) <= 100
    ensures Percent(index + 1, total) == 100 <==> index == total - 1
    ensures total <= 100 ==> Percent(index + 1, total) >= 1
  {
    var a := (index + 1) * 100;
    assert a <= 100 * total;
    DivAtMost(a, total, 100);
    if index == total - 1 {
      DivAtLeast(a, total, 100);
    } else {
      assert a < 100 * total;
      DivBelow(a, total, 100);
    }
    if total <= 100 {
      DivAtLeast(a, total, 1);
    }
  }

  lemma DivAtMost(a: nat, t: nat, k: nat)
    requires t > 0 && a <= k * t
    ensures a / t <= k
  {
    if a / t > k {
      MulMonotone(k + 1, a / t, t);
    }
  }

  lemma DivAtLeast(a: nat, t: nat, k: nat)
    requires t > 0 && k * t <= a
    ensures a / t >= k
  {
    if a / t < k {
      MulMonotone(a / t + 1, k, t);
    }
  }

  lemma DivBelow(a: nat, t: nat, k: nat)
    requires t > 0 && a < k * t
    ensures a / t < k
  {
    if a / t >= k {
      MulMonotone(k, a / t, t);
    }
  }

  lemma MulMonotone(x: nat, y: nat, t: nat)
    requires x <= y
    ensures x * t <= y * t
  {
    assert y * t == x * t + (y - x) * t;
  }

  /** The bar grows as the quiz advances. */
  lemma ProgressMonotone(i: nat, j: nat, total: nat)
    requires i <= j < total
    ensures Percent(i + 1, total) <= Percent(j + 1, total)
  {
    var a, b := (i + 1) * 100, (j + 1) * 100;
    assert (a / total) * total <= a <= b;
    DivAtLeast(b, total, a / total);
  }

  lemma FirstNonDigit(d: string, x: string)
    requires AllDigits(d, 10) && x != [] && !IsDigit(x[0], 10)
    ensures forall i :: 0 <= i < |d| ==> IsDigit((d + x)[i], 10)
    ensures !IsDigit((d + x)[|d|], 10)
  {
  }

  /** Digits followed by a non-digit can be split in only one place. */
  lemma SplitAtNonDigit(d1: string, x1: string, d2: string, x2: string)
    requires AllDigits(d1, 10) && AllDigits(d2, 10)
    requires x1 != [] && !IsDigit(x1[0], 10) && x2 != [] && !IsDigit(x2[0], 10)
    requires d1 + x1 == d2 + x2
    ensures d1 == d2 && x1 == x2
  {
    FirstNonDigit(d1, x1);
    FirstNonDigit(d2, x2);
    assert |d1| == |d2|;
    assert d1 == (d1 + x1)[..|d1|] && d2 == (d2 + x2)[..|d2|];
    assert x1 == (d1 + x1)[|d1|..] && x2 == (d2 + x2)[|d2|..];
  }

  lemma DropCommonPrefix(p: string, a: string, b: string)
    requires p + a == p + b
    ensures a == b
  {
    assert a == (p + a)[|p|..] && b == (p + b)[|p|..];
  }

  /** The completion message states the score and the total verbatim: different pairs
      never give the same message. */
  lemma FinalMessageReportsVerbatim(score: nat, total: nat, score': nat, total': nat)
    requires FinalMessage(score, total) == FinalMessage(score', total')
    ensures score == score' && total == total'
  {
    var s, t, s', t' := NatToString(score), NatToString(total), NatToString(score'), NatToString(total');
    FinalMessageParts(score, total);
    FinalMessageParts(score', total');
    NumeralsFromParts(s, t, s', t');
    NatToStringInjective(score, score');
    NatToStringInjective(total, total');
  }

  lemma FinalMessageParts(score: nat, total: nat)
    ensures FinalMessage(score, total)
            == "Your final score is " + (NatToString(score) + (" out of " + (NatToString(total) + ".")))
  {
    var s, t := NatToString(score), NatToString(total);
    assert FinalMessage(score, total) == "Your final score is " + s + " out of " + t + ".";
  }

  /** The two numerals of the message are separated by non-digits, so the whole message
      fixes both. */
  lemma NumeralsFromParts(s: string, t: string, s': string, t': string)
    requires AllDigits(s, 10) && AllDigits(t, 10) && AllDigits(s', 10) && AllDigits(t', 10)
    requires "Your final score is " + (s + (" out of " + (t + ".")))
             == "Your final score is " + (s' + (" out of " + (t' + ".")))
    ensures s == s' && t == t'
  {
    var lead, mid := "Your final score is ", " out of ";
    DropCommonPrefix(lead, s + (mid + (t + ".")), s' + (mid + (t' + ".")));
    SplitAtNonDigit(s, mid + (t + "."), s', mid + (t' + "."));
    DropCommonPrefix(mid, t + ".", t' + ".");
    SplitAtNonDigit(t, ".", t', ".");
  }

  /** For single-digit numbers the message reads, for example, "Your final score is 3
      out of 5." */
  lemma FinalMessageExample(score: nat, total: nat)
    requires score < 10 && total < 10
    ensures FinalMessage(score, total)
            == "Your final score is " + [DecimalDigit(score)] + " out of " + [DecimalDigit(total)] + "."
  {
  }

  /** The question label numbers questions from 1: after the "Q", parseInt reads
      `index + 1`. */
  lemma QuestionLabelNumbersFromOne(index: nat, q: Question)
    ensures var caption := QuestionLabel(index, q);
      && |caption| > 1 && caption[0] == 'Q'
      && ParseInt(caption[1..]) == Some(index + 1)
  {
    var caption := QuestionLabel(index, q);
    var rest := ": " + q.prompt;
    assert caption == "Q" + (IntToString(index + 1) + rest);
    assert caption[1..] == IntToString(index + 1) + rest;
    ParseIntOfIntToString(index + 1, rest);
  }

  /** After a wrong integral answer, the feedback names the correct key: what follows the
      fixed wording reads back through parseInt as the answer. */
  lemma IncorrectTextNamesAnswer(n: int)
    requires -MaxPlainNumeral < n < MaxPlainNumeral
    ensures var text := IncorrectText(IntAnswer(n));
      && |IncorrectPrefix| <= |text|
      && text[..|IncorrectPrefix|] == IncorrectPrefix
      && ParseInt(text[|IncorrectPrefix|..]) == Some(n)
  {
    var text := IncorrectText(IntAnswer(n));
    assert text == IncorrectPrefix + (IntToString(n) + ".");
    assert text[|IncorrectPrefix|..] == IntToString(n) + ".";
    ParseIntOfIntToString(n, ".");
  }

  /** loadQuestion creates exactly one enabled button per own key of `q.options`, in
      for-in order, captioned "key. text", whose handler passes parseInt of that key and
      the question's answer. */
  lemma FreshButtonsFollowOptions(q: Question)
    ensures var bs := FreshButtons(q);
      var order := EnumerationOrder(q.options);
      && multiset(order) == multiset(q.options)
      && (forall k :: 0 <= k < |bs| ==>
            && bs[k].text == order[k].key + ". " + order[k].text
            && bs[k].selected == ParseInt(order[k].key)
            && bs[k].correct == q.answer
            && bs[k].enabled)
  {
    EnumerationOrderSpec(q.options);
  }

  /** A button whose key is an array index selects that number, so it scores exactly
      when the answer is that number. */
  lemma IndexKeyScoresIff(e: Entry, correct: Answer)
    requires IsArrayIndex(e.key)
    ensures OptionButton(e, correct).selected == Some(Value(e.key, 10))
    ensures Matches(OptionButton(e, correct).selected, correct) <==> correct == IntAnswer(Value(e.key, 10))
  {
    ArrayIndexIsNumeral(e.key);
    ParseIntOfIntToString(Value(e.key, 10), []);
    assert e.key + [] == e.key;
  }
}

=== FILE: text.dfy ===
/** Strings the quiz script builds from numbers (template literals such as `Q${index + 1}`)
    and the JavaScript global `parseInt` that each option button applies to its key.
    Numbers are unbounded here; parseInt follows section 19.2.5 of ECMA-262. */
module Text {
  import opened Wrappers

  /** The value of `c` as a digit in any radix up to 36: '0'..'9' are 0..9 and the
      letters are 10..35 in either case. Every other character gets 36, a digit in no radix. */
  function DigitValue(c: char): (d: nat)
    ensures d <= 36
  {
    if '0' <= c <= '9' then c as int - '0' as int
    else if 'a' <= c <= 'z' then c as int - 'a' as int + 10
    else if 'A' <= c <= 'Z' then c as int - 'A' as int + 10
    else 36
  }

  predicate IsDigit(c: char, radix: nat) {
    DigitValue(c) < radix
  }

  predicate AllDigits(s: string, radix: nat) {
    forall i :: 0 <= i < |s| ==> IsDigit(s[i], radix)
  }

  /** A decimal numeral without superfluous leading zeros: what `String(n)` gives for a
      non-negative integer. */
  predicate IsCanonical(s: string) {
    |s| > 0 && AllDigits(s, 10) && (s[0] == '0' ==> |s| == 1)
  }

  /** The number a digit string denotes, most significant digit first. */
  function Value(s: string, radix: nat): nat {
    if s == [] then 0 else Value(s[..|s| - 1], radix) * radix + DigitValue(s[|s| - 1])
  }

  function DecimalDigit(d: nat): (c: char)
    requires d < 10
    ensures IsDigit(c, 10) && DigitValue(c) == d
  {
    ('0' as int + d) as char
  }

  /** `${n}` for a non-negative integer below 10^21; from 10^21 on, Number::toString
      switches to exponent notation, which is not modelled. */
  function NatToString(n: nat): (s: string)
    ensures IsCanonical(s)
    ensures Value(s, 10) == n
  {
    if n < 10 then [DecimalDigit(n)]
    else
      var s := NatToString(n / 10) + [DecimalDigit(n % 10)];
      assert s[..|s| - 1] == NatToString(n / 10);
      s
  }

  /** `${n}` for an integer of magnitude below 10^21: an optional minus sign, then the
      canonical decimal numeral of the magnitude. */
  function IntToString(n: int): (s: string)
    ensures n >= 0 ==> IsCanonical(s) && Value(s, 10) == n
    ensures n < 0 ==> |s| > 1 && s[0] == '-' && IsCanonical(s[1..]) && Value(s[1..], 10) == -n
  {
    if n < 0 then "-" + NatToString(-n) else NatToString(n)
  }

  lemma NatToStringInjective(a: nat, b: nat)
    requires NatToString(a) == NatToString(b)
    ensures a == b
  {
  }

  lemma {:induction false} ValueAtLeastLeadingDigit(s: string, radix: nat)
    requires |s| > 0 && radix >= 1
    ensures Value(s, radix) >= DigitValue(s[0])
  {
    if |s| > 1 {
      var t := s[..|s| - 1];
      ValueAtLeastLeadingDigit(t, radix);
      assert t[0] == s[0];
      var v := Value(t, radix);
      assert Value(s, radix) == v * radix + DigitValue(s[|s| - 1]);
      MulAtLeast(v, radix);
    }
  }

  lemma MulAtLeast(v: nat, k: nat)
    requires k >= 1
    ensures v * k >= v
  {
    assert v * k == v + v * (k - 1);
  }

  /** Reading a canonical numeral and writing the number back gives the numeral again. */
  lemma {:induction false} NatToStringOfValue(s: string)
    requires IsCanonical(s)
    ensures NatToString(Value(s, 10)) == s
  {
    var last := s[|s| - 1];
    if |s| == 1 {
      assert s == [last];
    } else {
      var t := s[..|s| - 1];
      assert IsCanonical(t) by {
        assert forall i :: 0 <= i < |t| ==> t[i] == s[i];
      }
      NatToStringOfValue(t);
      ValueAtLeastLeadingDigit(t, 10);
      var v := Value(s, 10);
      assert v == Value(t, 10) * 10 + DigitValue(last);
      assert v / 10 == Value(t, 10) && v % 10 == DigitValue(last);
      assert DecimalDigit(v % 10) == last;
      assert s == t + [last];
    }
  }

  /** The characters parseInt skips before the number: WhiteSpace and LineTerminator of
      ECMA-262 (sections 12.2 and 12.3), the space separators being the Unicode Zs set. */
  predicate IsStrWhiteSpace(c: char) {
    || '\t' <= c <= '\r'
    || c == ' ' || c == '\U{00A0}' || c == '\U{1680}' || '\U{2000}' <= c <= '\U{200A}'
    || c == '\U{2028}' || c == '\U{2029}' || c == '\U{202F}' || c == '\U{205F}'
    || c == '\U{3000}' || c == '\U{FEFF}'
  }

  /** `s` without its leading white space. */
  function TrimStart(s: string): (t: string)
    ensures |t| <= |s| && t == s[|s| - |t|..]
    ensures forall i :: 0 <= i < |s| - |t| ==> IsStrWhiteSpace(s[i])
    ensures t == [] || !IsStrWhiteSpace(t[0])
  {
    if s != [] && IsStrWhiteSpace(s[0]) then TrimStart(s[1..]) else s
  }

  /** The longest prefix of `s` made of digits of the radix. */
  function DigitPrefix(s: string, radix: nat): (d: string)
    ensures d <= s && AllDigits(d, radix)
    ensures |d| == |s| || !IsDigit(s[|d|], radix)
  {
    if s != [] && IsDigit(s[0], radix) then [s[0]] + DigitPrefix(s[1..], radix) else []
  }

  /** The magnitude parseInt reads once white space and sign are gone: a "0x" or "0X"
      prefix selects radix 16, and the longest run of digits that follows is the number;
      no digits at all is NaN. */
  function ParseMagnitude(u: string): (m: Option<nat>)
    ensures m.Some? ==> u != [] && IsDigit(u[0], 10)
  {
    var hex := |u| >= 2 && u[0] == '0' && (u[1] == 'x' || u[1] == 'X');
    var radix := if hex then 16 else 10;
    var digits := DigitPrefix(if hex then u[2..] else u, radix);
    if digits == [] then None else Some(Value(digits, radix))
  }

  /** `parseInt(s)` with no radix argument; `None` is NaN. Leading white space is skipped
      and one sign is read before the magnitude. */
  function ParseInt(s: string): (r: Option<int>)
    ensures (forall i :: 0 <= i < |s| ==> !IsDigit(s[i], 10)) ==> r.None?
    ensures r.Some? && r.value < 0 ==> '-' in s
  {
    var t := TrimStart(s);
    var signed := t != [] && (t[0] == '-' || t[0] == '+');
    var u := if signed then t[1..] else t;
    match ParseMagnitude(u)
    case None => None
    case Some(v) =>
      assert u == s[|s| - |u|..];
      assert s[|s| - |u|] == u[0];
      assert signed ==> s[|s| - |t|] == t[0];
      var n: int := v;
      if signed && t[0] == '-' then Some(-n) else Some(n)
  }

  lemma {:induction false} DigitPrefixOfDigits(d: string, rest: string, radix: nat)
    requires AllDigits(d, radix)
    requires rest == [] || !IsDigit(rest[0], radix)
    ensures DigitPrefix(d + rest, radix) == d
  {
    if d != [] {
      assert (d + rest)[1..] == d[1..] + rest;
      DigitPrefixOfDigits(d[1..], rest, radix);
      assert d == [d[0]] + d[1..];
    } else {
      assert d + rest == rest;
    }
  }

  /** Without a hexadecimal prefix, the magnitude is the leading decimal digits. */
  lemma ParseMagnitudeDecimal(u: string, d: string)
    requires |u| >= 2 ==> u[1] != 'x' && u[1] != 'X'
    requires d == DigitPrefix(u, 10) && d != []
    ensures ParseMagnitude(u) == Some(Value(d, 10))
  {
  }

  lemma DigitIsNoSpace(c: char)
    requires IsDigit(c, 10)
    ensures '0' <= c <= '9'
    ensures !IsStrWhiteSpace(c) && c != '-' && c != '+'
  {
  }

  lemma TrimStartNoSpace(s: string)
    requires s != [] && !IsStrWhiteSpace(s[0])
    ensures TrimStart(s) == s
  {
  }

  /** With nothing to skip in front, parseInt reads the magnitude, negated after a minus. */
  lemma ParseIntUnsigned(u: string, v: nat)
    requires u != [] && !IsStrWhiteSpace(u[0]) && u[0] != '-' && u[0] != '+'
    requires ParseMagnitude(u) == Some(v)
    ensures ParseInt(u) == Some(v)
    ensures ParseInt("-" + u) == Some(-(v as int))
  {
    TrimStartNoSpace(u);
    ParseIntNegated(u, v);
  }

  lemma ParseIntNegated(u: string, v: nat)
    requires ParseMagnitude(u) == Some(v)
    ensures ParseInt("-" + u) == Some(-(v as int))
  {
    var s := "-" + u;
    TrimStartNoSpace(s);
    assert s[1..] == u;
  }

  /** A written integer followed by a character that is no digit in any radix (such as
      the full stop that ends a sentence) is read back by parseInt as that integer. */
  lemma ParseIntOfIntToString(n: int, rest: string)
    requires rest == [] || DigitValue(rest[0]) == 36
    ensures ParseInt(IntToString(n) + rest) == Some(n)
  {
    var m: nat := if n < 0 then -n else n;
    var u := NatToString(m) + rest;
    MagnitudeOfNatToString(m, rest);
    assert !IsStrWhiteSpace(u[0]) && u[0] != '-' && u[0] != '+' by {
      DigitIsNoSpace(u[0]);
    }
    ParseIntUnsigned(u, m);
    if n < 0 {
      NegativeToString(n, rest, u);
    } else {
      assert IntToString(n) + rest == u;
    }
  }

  /** parseInt reads a canonical numeral as its value. */
  lemma ParseIntOfNumeral(key: string)
    requires IsCanonical(key)
    ensures ParseInt(key) == Some(Value(key, 10))
  {
    NatToStringOfValue(key);
    ParseIntOfIntToString(Value(key, 10), []);
    assert IntToString(Value(key, 10)) + [] == key;
  }

  /** parseInt reads back every integer a template literal writes in decimal. */
  lemma IntToStringRoundTrip(n: int)
    ensures ParseInt(IntToString(n)) == Some(n)
  {
    ParseIntOfIntToString(n, []);
    assert IntToString(n) + [] == IntToString(n);
  }

  lemma NegativeToString(n: int, rest: string, u: string)
    requires n < 0 && u == NatToString(-n) + rest
    ensures IntToString(n) + rest == "-" + u
  {
  }

  lemma MagnitudeOfNatToString(m: nat, rest: string)
    requires rest == [] || DigitValue(rest[0]) == 36
    ensures var u := NatToString(m) + rest;
      && IsDigit(u[0], 10)
      && ParseMagnitude(u) == Some(m)
  {
    var d := NatToString(m);
    var u := d + rest;
    assert DigitPrefix(u, 10) == d by {
      DigitPrefixOfDigits(d, rest, 10);
    }
    assert u[0] == d[0];
    assert |u| >= 2 ==> u[1] != 'x' && u[1] != 'X' by {
      if |u| >= 2 {
        if |d| >= 2 { assert u[1] == d[1]; } else { assert u[1] == rest[0]; }
      }
    }
    ParseMagnitudeDecimal(u, d);
  }

  /** A key that starts with a character other than white space, a sign or a decimal
      digit is NaN to parseInt. */
  lemma ParseIntNoDigits(s: string)
    requires s != [] && !IsStrWhiteSpace(s[0]) && s[0] != '-' && s[0] != '+'
    requires !IsDigit(s[0], 10)
    ensures ParseInt(s) == None
  {
    assert TrimStart(s) == s;
  }
}

=== FILE: wrappers.dfy ===
/** The optional value of the model: `None` stands for a value the script does not
    have, such as the NaN that parseInt returns when a string holds no digits. */
module Wrappers {

  datatype Option<+T> = None | Some(value: T)
}
